=== FILE: README.md ===
# Velo ride-quote scraping and price comparison, in Dafny

Velo is an Android app. It sends screenshots of the Uber and Ola booking screens to a backend. The backend answers each one with a short JSON-like text such as `{"app":"Uber","price":"₹199","eta":"4 min"}`. The app shows both quotes and flags the cheaper one. This project models the pure logic in `MainActivity.kt` that turns the two answers into that decision, and proves properties of it:

- **`RideInfo` and `parseRideJson`** (module `RideParse`):
  - A null answer, or one without `{`, gives the fixed record `RideInfo(price = "0.0")`. That record is app `""`, price `"0.0"`, eta `"N/A"`.
  - Otherwise each field is cut out of the text by the same chain, run for its own key:
    1. `substringAfter("\"key\"")`
    2. `substringAfter(":")`
    3. `substringAfter("\"")`
    4. `substringBefore("\"")`
    5. `trim()`
  - The regular-expression fallback in the `catch` block is modelled as its own function, `FallbackParse`. It takes the first run of ASCII digits as the price, or `"0.0"` when there is none.
- **`extractPriceValue`** (module `PriceValue`):
  - It drops every character outside `[0-9.]`, then reads the rest as a number.
  - Numbers are exact `real`s.
  - `Double.MAX_VALUE`, the value used when the text does not read as a number, is the element `Top`. `Top` lies above every number.
- **The cheapest-app decision** (module `PriceComparison`): the comparison card computes `isUberCheaper`, `isOlaCheaper` and the label `Uber` / `Ola` / `Same` from the two optional answers.

Kotlin's string functions are modelled in module `KotlinText`:

- **`indexOf`:** the first occurrence of the delimiter.
- **`substringAfter` and `substringBefore`:** when the delimiter is missing, each returns the whole string.
- **`trim`:** strips characters for which `Char.isWhitespace` holds. The model follows the OpenJDK definition, `Character.isWhitespace || Character.isSpaceChar`, on Unicode 6.3 or later; those are the code points 9–13, 28–32, U+00A0, U+1680, U+2000–U+200A, U+2028, U+2029, U+202F, U+205F and U+3000.

Each of these functions is stated against an independent description:

- first occurrence;
- suffix and prefix slices;
- the unique whitespace-free core of the text.

The text is a sequence of characters. `None` stands for Kotlin's `null`.

Behaviour of the code that the model pins down, because a reader might expect otherwise:

- **No `{`:** an answer without `{`, for instance an `Error: …` message from the uploader, gets the price `"0.0"`, not `"N/A"`. It therefore ranks as the free price 0 and wins the comparison against every quote priced above 0 (`ErrorBeatsQuote`).
- **Missing keys:** a missing key does not fall back to a default such as `"Unknown"`. Its `substringAfter` keeps the whole text, so the field reads the first quoted value after the first colon. `{"price":"250"}` parses to `("250", "250", "250")` (`OnlyPrice`).
- **The fallback is unreachable:** nothing in the `try` block can throw, because every cut is in range. So `parseRideJson` never reaches its fallback. Text such as `random 42 text` has no `{`, so it gets `"0.0"`; `FallbackParse` would answer `42` for it (`FallbackFirstRun`).
- **Key order:** the first occurrence of a quoted key wins, even inside a value. An app named `eta` makes the eta field read back the price (`AppNamedEta`). That is the only way a record with quote-free, trimmed fields fails to survive serialization and parsing (`ParseSerialized`). An app named `price`, or a price named `eta`, does no harm, because the entry after such a value is the key's own (`SerializedPrice`, `SerializedEta`).

Files:

| file | content |
|---|---|
| `options.dfy` | `Option` |
| `kotlin_text.dfy` | `indexOf`, `substringAfter`, `substringBefore`, `trim`, whitespace, digits |
| `ride_parse.dfy` | `RideInfo`, `parseRideJson`, the field chain, the digit-run fallback, serialization round trip |
| `price_value.dfy` | price cleaning, decimal reading, `Price`, `extractPriceValue` |
| `price_comparison.dfy` | the cheapest-app decision |

## Model

| member | source | states |
|---|---|---|
| KotlinText.IndexOf | app/src/main/java/com/example/velo/MainActivity.kt:108-110 | `-1` exactly when the delimiter occurs nowhere; otherwise the index of its first occurrence |
| KotlinText.SubstringAfter | app/src/main/java/com/example/velo/MainActivity.kt:108-110 | the result is a suffix of the text, and a missing delimiter leaves the whole text |
| KotlinText.SubstringAfterAt | app/src/main/java/com/example/velo/MainActivity.kt:108-110 | when the delimiter first occurs at `i`, the result is exactly the text after that occurrence |
| KotlinText.SubstringBefore | app/src/main/java/com/example/velo/MainActivity.kt:108-110 | the result is a prefix of the text, a missing delimiter leaves the whole text, and a non-empty delimiter never occurs in the result |
| KotlinText.SubstringBeforeAt | app/src/main/java/com/example/velo/MainActivity.kt:108-110 | when the delimiter first occurs at `i`, the result is exactly the text before it |
| KotlinText.AroundFirst | app/src/main/java/com/example/velo/MainActivity.kt:108-110 | around the first occurrence of a one-character delimiter, the two cuts return the parts before and after it |
| KotlinText.Trim | app/src/main/java/com/example/velo/MainActivity.kt:108-110 | the result is no longer than the text and has no whitespace at either end |
| KotlinText.TrimSpec | app/src/main/java/com/example/velo/MainActivity.kt:108-110 | the result is a contiguous piece of the text with only whitespace on each side of it |
| KotlinText.TrimCharacterized | app/src/main/java/com/example/velo/MainActivity.kt:108-110 | `r` is the trim of `s` if and only if `r` is a piece of `s` with only whitespace around it and none at its own ends |
| KotlinText.TrimIdempotent | app/src/main/java/com/example/velo/MainActivity.kt:108-110 | trimming twice is trimming once |
| KotlinText.TrimOfTrimmed | app/src/main/java/com/example/velo/MainActivity.kt:108-110 | text with no whitespace at its ends is left unchanged |
| RideParse.ParseRideJson | app/src/main/java/com/example/velo/MainActivity.kt:103-112 | null or `{`-less input gives exactly app `""`, price `"0.0"`, eta `"N/A"`; every result has fields with no double quote and no outer whitespace |
| RideParse.ExtractField | app/src/main/java/com/example/velo/MainActivity.kt:108-110 | an extracted field holds no double quote and has no whitespace at either end |
| RideParse.FieldIsSlice | app/src/main/java/com/example/velo/MainActivity.kt:108-110 | every extracted field is a contiguous substring of the answer |
| RideParse.FieldAfterFirstKey | app/src/main/java/com/example/velo/MainActivity.kt:108-110 | after the first `"key"`, colon-free text, a colon and a quoted quote-free value, the field is that value trimmed |
| RideParse.FieldOfObject | app/src/main/java/com/example/velo/MainActivity.kt:108-110 | in an object of quote-free tokens, a key reads the value, trimmed, of the first colon entry after the first token that spells the key, when only colon-free tokens lie between them |
| RideParse.ReadSerialized | app/src/main/java/com/example/velo/MainActivity.kt:106-112 | a record with quote-free fields, written as `{"app":…,"price":…,"eta":…}`, parses to its fields trimmed, except that an app named `eta` makes the eta read the price |
| RideParse.ParseSerialized | app/src/main/java/com/example/velo/MainActivity.kt:106-112 | a record with quote-free, trimmed fields survives serialization followed by parsing if and only if its app is not named `eta` or its price equals its eta |
| RideParse.SerializedApp | app/src/main/java/com/example/velo/MainActivity.kt:110 | a quote-free app field of a serialized record reads back, trimmed |
| RideParse.SerializedPrice | app/src/main/java/com/example/velo/MainActivity.kt:108 | with a quote-free app and price, the price field of a serialized record reads back, trimmed, whatever the app is called |
| RideParse.SerializedEta | app/src/main/java/com/example/velo/MainActivity.kt:109 | with quote-free fields, the eta field reads back, trimmed, unless the app is named `eta`, in which case it reads the price (then only the price need be quote-free) |
| RideParse.ParseUberQuote | app/src/main/java/com/example/velo/MainActivity.kt:106-112 | `{"app":"Uber","price":"₹199","eta":"4 min"}` parses to `("Uber", "₹199", "4 min")` |
| RideParse.ParseOlaQuote | app/src/main/java/com/example/velo/MainActivity.kt:106-112 | `{"app":"Ola","price":"₹250","eta":"6 min"}` parses to `("Ola", "₹250", "6 min")` |
| RideParse.AppNamedEta | app/src/main/java/com/example/velo/MainActivity.kt:109 | when the app is named `eta` and the price is quote-free, the eta read back is the trimmed price, whatever the eta was |
| RideParse.MissingKey | app/src/main/java/com/example/velo/MainActivity.kt:108-110 | a key that does not occur gets no default: it reads the first quoted value after the first colon |
| RideParse.AbsentFromObject | app/src/main/java/com/example/velo/MainActivity.kt:108-110 | for an object of quote-free tokens and a quote-free key, a key that no token spells does not occur quoted in the object's text |
| RideParse.SingleKeyOther | app/src/main/java/com/example/velo/MainActivity.kt:108-110 | in a one-key object with quote-free tokens and a colon-free key, every other key that is not spelled like the value or `:` reads the value |
| RideParse.OnlyPrice | app/src/main/java/com/example/velo/MainActivity.kt:108-110 | for a quote-free, trimmed `p` other than `app` and `eta`, `{"price":"p"}` parses to `(p, p, p)`; for example `{"price":"250"}` gives app and eta `"250"` |
| RideParse.FirstDigitRun | app/src/main/java/com/example/velo/MainActivity.kt:115 | no match if and only if the text has no ASCII digit; otherwise the leftmost maximal run of digits |
| RideParse.FirstDigitRunUnique | app/src/main/java/com/example/velo/MainActivity.kt:115 | whichever run is leftmost and maximal is the one found |
| RideParse.FallbackParse | app/src/main/java/com/example/velo/MainActivity.kt:113-117 | app `""` and eta `"N/A"`; price `"0.0"` exactly when there is no digit, else the first digit run |
| RideParse.FallbackFirstRun | app/src/main/java/com/example/velo/MainActivity.kt:113-117 | in `pre + d + post` with no digit in `pre` and `post` not continuing the run, the fallback price is `d` |
| PriceValue.CleanPrice | app/src/main/java/com/example/velo/MainActivity.kt:123 | the cleaned text holds only `0-9` and `.` and is no longer than the original |
| PriceValue.CleanCounts | app/src/main/java/com/example/velo/MainActivity.kt:123 | every digit and point is kept as often as it occurs; every other character is dropped |
| PriceValue.CleanAppend | app/src/main/java/com/example/velo/MainActivity.kt:123 | cleaning works piecewise, so the kept characters stay in their original order |
| PriceValue.CleanIdempotent | app/src/main/java/com/example/velo/MainActivity.kt:123 | cleaning twice is cleaning once |
| PriceValue.CleanKeepsDigits | app/src/main/java/com/example/velo/MainActivity.kt:123 | the cleaned text has a digit exactly when the original has one |
| PriceValue.ParseDecimal | app/src/main/java/com/example/velo/MainActivity.kt:124 | cleaned text reads as a number if and only if it has a digit and at most one point; the number is never negative; its value is given by `ParseWhole`, `WholeDecimal` and `PointedDecimal` |
| PriceValue.ParseWhole | app/src/main/java/com/example/velo/MainActivity.kt:124 | a non-empty run of digits reads as the whole number it spells |
| PriceValue.WholeDecimal | app/src/main/java/com/example/velo/MainActivity.kt:123-124 | a non-empty run of digits ranks as the whole number it spells |
| PriceValue.PointedDecimal | app/src/main/java/com/example/velo/MainActivity.kt:123-124 | digits, one point and digits, with a digit on some side, rank as `whole + frac / 10^len(frac)` |
| PriceValue.ParseNat | app/src/main/java/com/example/velo/MainActivity.kt:124 | the digits of a whole number read back as that number |
| PriceValue.TrailingZero | app/src/main/java/com/example/velo/MainActivity.kt:124 | a zero appended after the point does not change the value |
| PriceValue.PriceFromText | app/src/main/java/com/example/velo/MainActivity.kt:123-124 | a price text ranks at the sentinel if and only if it has no digit or more than one point; otherwise it ranks at a non-negative number |
| PriceValue.ExtractPriceValue | app/src/main/java/com/example/velo/MainActivity.kt:120-125 | an answer without `{` ranks as 0; no answer ranks below 0 |
| PriceValue.NoObjectPriceIsZero | app/src/main/java/com/example/velo/MainActivity.kt:104 | the `"0.0"` given to `{`-less answers ranks as 0, not at the sentinel |
| PriceValue.DefaultPriceIsTop | app/src/main/java/com/example/velo/MainActivity.kt:47 | the record's default price `"N/A"` ranks at the sentinel |
| PriceValue.TwoPointsIsTop | app/src/main/java/com/example/velo/MainActivity.kt:124 | a price with two points ranks at the sentinel |
| PriceValue.RupeeAmount | app/src/main/java/com/example/velo/MainActivity.kt:122-124 | `₹a,b.c` ranks as the decimal `ab.c` |
| PriceValue.RupeePrice | app/src/main/java/com/example/velo/MainActivity.kt:122-124 | `"₹1,250.50"` ranks as 1250.5 |
| PriceValue.ErrorTextIsFree | app/src/main/java/com/example/velo/ScreenshotUploader.kt:79-85 | every `Error: …` message without `{` ranks as the free price 0 |
| PriceValue.LessIsStrictTotalOrder | app/src/main/java/com/example/velo/MainActivity.kt:386-387 | `<` on prices is irreflexive, transitive, asymmetric and total |
| PriceComparison.SidePrice | app/src/main/java/com/example/velo/MainActivity.kt:384-385 | a missing answer ranks at the sentinel; an answer without `{` ranks as 0 |
| PriceComparison.ComparePrices | app/src/main/java/com/example/velo/MainActivity.kt:386-388 | each flag holds exactly when its side ranks strictly below the other, so at most one holds; the label is `Same` exactly when the prices are equal, `Uber` exactly when the Uber flag holds, `Ola` exactly when the Ola flag holds |
| PriceComparison.CompareRides | app/src/main/java/com/example/velo/MainActivity.kt:384-388 | each flag holds exactly when its side ranks strictly below the other; `Same` exactly when both sides rank alike |
| PriceComparison.SwapSymmetric | app/src/main/java/com/example/velo/MainActivity.kt:384-388 | exchanging the two sides exchanges the flags and the labels `Uber` and `Ola` |
| PriceComparison.EqualPricesSame | app/src/main/java/com/example/velo/MainActivity.kt:386-388 | equal prices, two sentinels included, give `Same` with no flag |
| PriceComparison.BothAbsentSame | app/src/main/java/com/example/velo/MainActivity.kt:384-388 | two missing answers give `Same` |
| PriceComparison.UberAbsent | app/src/main/java/com/example/velo/MainActivity.kt:384-388 | a missing Uber answer makes Ola the cheapest app when Ola's price reads as a number, and `Same` when it does not |
| PriceComparison.OlaAbsent | app/src/main/java/com/example/velo/MainActivity.kt:384-388 | the same with the sides exchanged |
| PriceComparison.ErrorBeatsQuote | app/src/main/java/com/example/velo/MainActivity.kt:384-388 | an `Error: …` text without `{` in place of the Uber answer beats every Ola quote whose price is not 0 |
| PriceComparison.UberCheaperExample | app/src/main/java/com/example/velo/MainActivity.kt:384-388 | Uber at ₹199 against Ola at ₹250 sets only the Uber flag and labels `Uber` |

## Left out

- **User interface:** the Compose UI, Google and Firebase sign-in, the Uber and Ola intents, and the coroutine that runs the two backend calls. These are presentation, foreign SDK calls and concurrency.
- **ScreenshotUploader.kt and GeminiHelper.kt:** these are network, image and JSON-library I/O. The uploader's `Error: …` strings appear only as inputs to `ErrorTextIsFree` and `ErrorBeatsQuote`.
- **The guard around the comparison:** the decision at lines 384-388 sits inside `if (uberResult != null && olaResult != null)`. That guard is not modelled. `CompareRides` takes optional answers, as the `?.let … ?: Double.MAX_VALUE` expressions do, so the lemmas about a missing side describe those expressions and are not reachable from the card as written.
- PriceValue.ParseDecimal: models `toDoubleOrNull` only on cleaned text (digits and points), the only text it receives here. The number is exact, so there is no IEEE-754 rounding, and a digit string beyond `Double.MAX_VALUE` does not overflow to infinity.
- PriceValue.Less: a parsed number equal to or above `Double.MAX_VALUE` is still below `Top`. The doubles would compare it as equal or greater, which needs a number of more than 300 digits.
- KotlinText.Trim: follows OpenJDK's whitespace set. Some Android releases also count U+180E MONGOLIAN VOWEL SEPARATOR as whitespace. The model does not, so a field ending in that character keeps it here, where such a release would trim it.
- **Text encoding:** Kotlin strings are UTF-16 code units, while the model works on Unicode characters. No supplementary character is whitespace, an ASCII digit or a point, so trimming and cleaning treat them the same either way.
- RideParse.FirstDigitRun: reads the fallback's `\d` as the ASCII digits `0-9`. Android's regular expressions may also match other Unicode decimal digits, such as `٣` or `३`, and the model does not follow them there. The fallback is unreachable, so no result of `parseRideJson` depends on this.
- **The `catch` block:** the model has no exceptions. Since no step of the `try` block can fail, `ParseRideJson` does not call `FallbackParse`. `FallbackParse` takes the text itself, because `jsonString` is not null on that path.
- **Other answer layouts:** the round-trip lemmas cover the compact three-key form. Answers with extra keys, spaces around colons, or escaped quotes are covered only by the general lemmas about the field chain (`FieldAfterFirstKey`, `MissingKey`).

=== FILE: kotlin_text.dfy ===
/**
  The parts of Kotlin's standard string library that the ride-quote scraper
  relies on: `indexOf`, `substringAfter`, `substringBefore`, `trim` and
  `Char.isWhitespace`. Strings are sequences of characters; every function is
  total, and each one is specified against an independent description of what
  it computes (first occurrence, suffix/prefix slices, whitespace margins).
*/
module KotlinText {

  /** `Char.isWhitespace()` as OpenJDK defines it: `Character.isWhitespace(c) || Character.isSpaceChar(c)`, with Unicode 6.3 or later tables. */
  predicate IsWhitespace(c: char) {
    var n := c as int;
    || 0x09 <= n <= 0x0D
    || 0x1C <= n <= 0x20
    || n == 0xA0
    || n == 0x1680
    || 0x2000 <= n <= 0x200A
    || n == 0x2028 || n == 0x2029 || n == 0x202F || n == 0x205F
    || n == 0x3000
  }

  /**
    An ASCII decimal digit: the `0-9` of the class `[^0-9.]`. The fallback's
    `\d` is read as this same set, although Android's regular expressions may
    also match other Unicode decimal digits there.
  */
  predicate IsDigit(c: char) {
    '0' <= c <= '9'
  }

  predicate HasDigit(s: string) {
    exists k :: 0 <= k < |s| && IsDigit(s[k])
  }

  predicate AllWhitespace(s: string) {
    forall k :: 0 <= k < |s| ==> IsWhitespace(s[k])
  }

  /** `r` is a suffix of `s`. */
  predicate IsSuffix(r: string, s: string) {
    |r| <= |s| && r == s[|s| - |r|..]
  }

  /** Neither the first nor the last character is whitespace. */
  predicate IsTrimmed(s: string) {
    |s| > 0 ==> !IsWhitespace(s[0]) && !IsWhitespace(s[|s| - 1])
  }

  /** `d` occurs in `s` starting at index `i`. */
  predicate OccursAt(s: string, d: string, i: int) {
    0 <= i && i + |d| <= |s| && s[i..i + |d|] == d
  }

  /** `i` is the first index at which `d` occurs in `s`. */
  predicate FirstAt(s: string, d: string, i: int) {
    OccursAt(s, d, i) && forall j :: 0 <= j < i ==> !OccursAt(s, d, j)
  }

  predicate Absent(s: string, d: string) {
    forall j :: 0 <= j <= |s| ==> !OccursAt(s, d, j)
  }

  /** Java's `s.indexOf(d, from)`: the first occurrence of `d` at or after `from`, or -1. */
  function IndexFrom(s: string, d: string, from: nat): (r: int)
    requires from <= |s|
    ensures r == -1 || (from <= r && OccursAt(s, d, r))
    ensures r == -1 ==> forall j :: from <= j ==> !OccursAt(s, d, j)
    ensures r != -1 ==> forall j :: from <= j < r ==> !OccursAt(s, d, j)
    decreases |s| - from
  {
    if from + |d| > |s| then -1
    else if s[from..from + |d|] == d then from
    else IndexFrom(s, d, from + 1)
  }

  /** Kotlin's `s.indexOf(d)`: the first occurrence of `d` in `s`, or -1 when there is none. */
  function IndexOf(s: string, d: string): (r: int)
    ensures r == -1 <==> Absent(s, d)
    ensures r != -1 ==> FirstAt(s, d, r)
  {
    IndexFrom(s, d, 0)
  }

  /** There is at most one first occurrence. */
  lemma FirstAtUnique(s: string, d: string, i: int, j: int)
    requires FirstAt(s, d, i) && FirstAt(s, d, j)
    ensures i == j
  {
  }

  /**
    Kotlin's `s.substringAfter(d)`: the text after the first occurrence of `d`,
    or the whole of `s` when `d` does not occur (the default
    `missingDelimiterValue` is the receiver itself).
  */
  function SubstringAfter(s: string, d: string): (r: string)
    ensures IsSuffix(r, s)
    ensures Absent(s, d) ==> r == s
  {
    var i := IndexOf(s, d);
    if i == -1 then s else s[i + |d|..]
  }

  /** When `d` first occurs at `i`, `substringAfter` returns exactly what follows that occurrence. */
  lemma SubstringAfterAt(s: string, d: string, i: int)
    requires FirstAt(s, d, i)
    ensures SubstringAfter(s, d) == s[i + |d|..]
  {
    FirstAtUnique(s, d, i, IndexOf(s, d));
  }

  /**
    Kotlin's `s.substringBefore(d)`: the text before the first occurrence of
    `d`, or the whole of `s` when `d` does not occur. The result never contains
    a non-empty `d`.
  */
  function SubstringBefore(s: string, d: string): (r: string)
    ensures r <= s
    ensures Absent(s, d) ==> r == s
    ensures |d| > 0 ==> Absent(r, d)
  {
    var i := IndexOf(s, d);
    if i == -1 then s
    else
      assert forall j :: OccursAt(s[..i], d, j) ==> OccursAt(s, d, j) by {
        forall j | OccursAt(s[..i], d, j) ensures OccursAt(s, d, j) {
          assert s[..i][j..j + |d|] == s[j..j + |d|];
        }
      }
      s[..i]
  }

  /** When `d` first occurs at `i`, `substringBefore` returns exactly what precedes that occurrence. */
  lemma SubstringBeforeAt(s: string, d: string, i: int)
    requires FirstAt(s, d, i)
    ensures SubstringBefore(s, d) == s[..i]
  {
    FirstAtUnique(s, d, i, IndexOf(s, d));
  }

  /** Drops leading whitespace: the result is the longest suffix that does not start with whitespace. */
  function TrimStart(s: string): (r: string)
    ensures |r| <= |s| && r == s[|s| - |r|..]
    ensures AllWhitespace(s[..|s| - |r|])
    ensures |r| > 0 ==> !IsWhitespace(r[0])
  {
    if |s| > 0 && IsWhitespace(s[0]) then
      var r := TrimStart(s[1..]);
      assert AllWhitespace(s[..|s| - |r|]) by {
        var dropped := s[1..][..|s| - 1 - |r|];
        forall k | 0 <= k < |s| - |r| ensures IsWhitespace(s[k]) {
          if k > 0 {
            assert s[k] == dropped[k - 1];
          }
        }
      }
      r
    else s
  }

  /** Drops trailing whitespace: the result is the longest prefix that does not end with whitespace. */
  function TrimEnd(s: string): (r: string)
    ensures |r| <= |s| && r == s[..|r|]
    ensures AllWhitespace(s[|r|..])
    ensures |r| > 0 ==> !IsWhitespace(r[|r| - 1])
  {
    if |s| > 0 && IsWhitespace(s[|s| - 1]) then
      var r := TrimEnd(s[..|s| - 1]);
      assert AllWhitespace(s[|r|..]) by {
        var dropped := s[..|s| - 1][|r|..];
        forall k | |r| <= k < |s| ensures IsWhitespace(s[k]) {
          if k < |s| - 1 {
            assert s[k] == dropped[k - |r|];
          }
        }
      }
      r
    else s
  }

  /** `r` occurs in `s` at index `lo`. */
  predicate SliceAt(s: string, lo: int, r: string) {
    0 <= lo <= |s| - |r| && s[lo..lo + |r|] == r
  }

  /** `r` is a contiguous piece of `s`. */
  ghost predicate IsSliceOf(r: string, s: string) {
    exists lo :: SliceAt(s, lo, r)
  }

  /** A suffix of a suffix is a suffix. */
  lemma SuffixOfSuffix(s: string, t: string, u: string)
    requires IsSuffix(t, s) && IsSuffix(u, t)
    ensures IsSuffix(u, s)
  {
  }

  /** A prefix of a suffix is a piece. */
  lemma PrefixOfSuffix(s: string, t: string, u: string)
    requires IsSuffix(t, s) && u <= t
    ensures IsSliceOf(u, s)
  {
    assert SliceAt(s, |s| - |t|, u);
  }

  /** A piece of a piece is a piece. */
  lemma SliceOfSlice(s: string, a: int, t: string, b: int, r: string)
    requires SliceAt(s, a, t) && SliceAt(t, b, r)
    ensures SliceAt(s, a + b, r)
  {
    forall k | 0 <= k < |r| ensures s[a + b..a + b + |r|][k] == r[k] {
      assert r[k] == t[b + k] == s[a + b + k];
    }
  }

  /**
    `s` splits as whitespace, then `r`, then whitespace, and `r` neither starts
    nor ends with whitespace: the description of Kotlin's `trim()`.
  */
  ghost predicate IsTrimOf(s: string, r: string) {
    IsTrimmed(r)
    && exists lo :: 0 <= lo <= |s| - |r| && s[lo..lo + |r|] == r
                    && AllWhitespace(s[..lo]) && AllWhitespace(s[lo + |r|..])
  }

  /** Kotlin's `String.trim()`: removes leading and trailing `Char.isWhitespace` characters. */
  function Trim(s: string): (r: string)
    ensures |r| <= |s|
    ensures IsTrimmed(r)
  {
    TrimEnd(TrimStart(s))
  }

  /** `Trim` keeps the core of `s` and drops only whitespace margins. */
  lemma TrimSpec(s: string)
    ensures IsTrimOf(s, Trim(s))
  {
    var t := TrimStart(s);
    var r := TrimEnd(t);
    assert r == Trim(s);
    TrimOfParts(s, |s| - |t|, t, r);
  }

  /** Whitespace, then a trimmed `r` that starts the suffix `t`, then whitespace: `r` is the trim of `s`. */
  lemma TrimOfParts(s: string, lo: int, t: string, r: string)
    requires 0 <= lo <= |s| && t == s[lo..] && |r| <= |t| && r == t[..|r|]
    requires AllWhitespace(s[..lo]) && AllWhitespace(t[|r|..]) && IsTrimmed(r)
    ensures IsTrimOf(s, r)
  {
    assert s[lo..lo + |r|] == r;
    assert s[lo + |r|..] == t[|r|..];
  }

  /** The trimmed text is a piece of the untrimmed text. */
  lemma TrimSlice(s: string)
    ensures IsSliceOf(Trim(s), s)
  {
    var t := TrimStart(s);
    var r := TrimEnd(t);
    assert s[|s| - |t|..|s| - |t| + |r|] == t[..|r|];
    assert SliceAt(s, |s| - |t|, r);
  }

  /** Being a piece is transitive. */
  lemma SliceTransitive(r: string, t: string, s: string)
    requires IsSliceOf(r, t) && IsSliceOf(t, s)
    ensures IsSliceOf(r, s)
  {
    var b :| SliceAt(t, b, r);
    var a :| SliceAt(s, a, t);
    SliceOfSlice(s, a, t, b, r);
  }

  /** The whitespace margins of a string are determined by the string: at most one `r` satisfies `IsTrimOf(s, r)`. */
  lemma TrimOfUnique(s: string, r1: string, r2: string)
    requires IsTrimOf(s, r1) && IsTrimOf(s, r2)
    ensures r1 == r2
  {
    var lo1 :| 0 <= lo1 <= |s| - |r1| && s[lo1..lo1 + |r1|] == r1
               && AllWhitespace(s[..lo1]) && AllWhitespace(s[lo1 + |r1|..]);
    var lo2 :| 0 <= lo2 <= |s| - |r2| && s[lo2..lo2 + |r2|] == r2
               && AllWhitespace(s[..lo2]) && AllWhitespace(s[lo2 + |r2|..]);
    MarginsOfCore(s, lo1, r1);
    MarginsOfCore(s, lo2, r2);
    if |r1| > 0 && |r2| > 0 {
      assert lo1 == lo2;
      assert lo1 + |r1| == lo2 + |r2|;
    }
  }

  /**
    In `s = ws + r + ws` with `r` trimmed, every character outside `r` is
    whitespace and, when `r` is non-empty, its end characters are not.
  */
  lemma MarginsOfCore(s: string, lo: int, r: string)
    requires 0 <= lo <= |s| - |r| && s[lo..lo + |r|] == r && IsTrimmed(r)
    requires AllWhitespace(s[..lo]) && AllWhitespace(s[lo + |r|..])
    ensures forall k :: 0 <= k < lo ==> IsWhitespace(s[k])
    ensures forall k :: lo + |r| <= k < |s| ==> IsWhitespace(s[k])
    ensures |r| > 0 ==> !IsWhitespace(s[lo]) && !IsWhitespace(s[lo + |r| - 1])
  {
    forall k | 0 <= k < lo ensures IsWhitespace(s[k]) {
      assert s[k] == s[..lo][k];
    }
    forall k | lo + |r| <= k < |s| ensures IsWhitespace(s[k]) {
      assert s[k] == s[lo + |r|..][k - lo - |r|];
    }
    if |r| > 0 {
      assert s[lo] == r[0] && s[lo + |r| - 1] == r[|r| - 1];
    }
  }

  /** `Trim` computes exactly the whitespace-free core that `IsTrimOf` describes, and nothing else does. */
  lemma TrimCharacterized(s: string, r: string)
    ensures IsTrimOf(s, r) <==> r == Trim(s)
  {
    TrimSpec(s);
    if IsTrimOf(s, r) {
      TrimOfUnique(s, r, Trim(s));
    }
  }

  /** Trimming twice is trimming once. */
  lemma TrimIdempotent(s: string)
    ensures Trim(Trim(s)) == Trim(s)
  {
    var r := Trim(s);
    assert r[0..0 + |r|] == r && r[..0] == [] && r[0 + |r|..] == [];
    assert IsTrimOf(r, r);
    TrimSpec(r);
    TrimOfUnique(r, r, Trim(r));
  }

  /** A string that is already trimmed is left as it is. */
  lemma TrimOfTrimmed(s: string)
    requires IsTrimmed(s)
    ensures Trim(s) == s
  {
    assert s[0..0 + |s|] == s && s[..0] == [] && s[0 + |s|..] == [];
    TrimCharacterized(s, s);
  }

  /** In `g + [c] + z` with no `c` in `g`, the first `c` is the one after `g`. */
  lemma AroundFirst(g: string, c: char, z: string)
    requires c !in g
    ensures SubstringAfter(g + [c] + z, [c]) == z
    ensures SubstringBefore(g + [c] + z, [c]) == g
  {
    var t := g + [c] + z;
    assert t[|g|..|g| + 1] == [c];
    forall j | 0 <= j < |g| ensures !OccursAt(t, [c], j) {
      assert t[j..j + 1] == [g[j]];
    }
    assert FirstAt(t, [c], |g|);
    SubstringAfterAt(t, [c], |g|);
    SubstringBeforeAt(t, [c], |g|);
    assert t[|g| + 1..] == z;
    assert t[..|g|] == g;
  }
}

=== FILE: options.dfy ===
/** An optional value, standing in for Kotlin's nullable types (`String?`). */
module Options {

  datatype Option<+T> = None | Some(value: T) {

    /** The contained value, or `default` when absent: Kotlin's `x ?: default`. */
    function GetOr(default: T): (r: T)
      ensures Some? ==> r == value
      ensures None? ==> r == default
    {
      match this
      case Some(v) => v
      case None => default
    }
  }
}

=== FILE: price_comparison.dfy ===
/**
  The cheapest-app decision of the comparison card: both raw responses are
  ranked with `extractPriceValue` (a missing response ranks at the
  `Double.MAX_VALUE` sentinel), each side is flagged when it is strictly
  below the other, and the label names the flagged side or says `Same`.
  The labels are fixed by position, never taken from the parsed `app` field.
*/
module PriceComparison {
  import opened Options
  import opened KotlinText
  import opened RideParse
  import opened PriceValue

  const UberLabel: string := "Uber"
  const OlaLabel: string := "Ola"
  const SameLabel: string := "Same"

  /** The three values the card computes: `isUberCheaper`, `isOlaCheaper`, `cheapestApp`. */
  datatype Comparison = Comparison(isUberCheaper: bool, isOlaCheaper: bool, cheapestApp: string)

  /** `result?.let { extractPriceValue(it) } ?: Double.MAX_VALUE`. */
  function SidePrice(result: Option<string>): (p: Price)
    ensures result.None? ==> p == Top
    ensures result.Some? && '{' !in result.value ==> p == Num(0.0)
  {
    match result
    case None => Top
    case Some(r) => ExtractPriceValue(r)
  }

  /** The decision on two ranked prices. */
  function ComparePrices(uber: Price, ola: Price): (c: Comparison)
    ensures c.isUberCheaper <==> Less(uber, ola)
    ensures c.isOlaCheaper <==> Less(ola, uber)
    ensures !(c.isUberCheaper && c.isOlaCheaper)
    ensures c.cheapestApp == SameLabel <==> uber == ola
    ensures c.cheapestApp == UberLabel <==> c.isUberCheaper
    ensures c.cheapestApp == OlaLabel <==> c.isOlaCheaper
    ensures c.cheapestApp in {UberLabel, OlaLabel, SameLabel}
  {
    LessIsStrictTotalOrder(uber, ola, ola);
    var isUberCheaper := Less(uber, ola);
    var isOlaCheaper := Less(ola, uber);
    var cheapestApp := if isUberCheaper then UberLabel else if isOlaCheaper then OlaLabel else SameLabel;
    Comparison(isUberCheaper, isOlaCheaper, cheapestApp)
  }

  /** The decision on the two raw responses; `None` stands for a side without a response. */
  function CompareRides(uberResult: Option<string>, olaResult: Option<string>): (c: Comparison)
    ensures c.isUberCheaper <==> Less(SidePrice(uberResult), SidePrice(olaResult))
    ensures c.isOlaCheaper <==> Less(SidePrice(olaResult), SidePrice(uberResult))
    ensures c.cheapestApp == SameLabel <==> SidePrice(uberResult) == SidePrice(olaResult)
  {
    ComparePrices(SidePrice(uberResult), SidePrice(olaResult))
  }

  /** The other side's label. */
  function OtherLabel(name: string): string {
    if name == UberLabel then OlaLabel else if name == OlaLabel then UberLabel else name
  }

  /** The decision seen from the other side: flags exchanged, `Uber` and `Ola` exchanged. */
  function Swapped(c: Comparison): Comparison {
    Comparison(c.isOlaCheaper, c.isUberCheaper, OtherLabel(c.cheapestApp))
  }

  /** Exchanging the two prices exchanges the flags and the two labels. */
  lemma SwapSymmetric(uber: Price, ola: Price)
    ensures ComparePrices(ola, uber) == Swapped(ComparePrices(uber, ola))
  {
    LessIsStrictTotalOrder(uber, ola, ola);
  }

  /** Equal prices, in particular two sentinels, give `Same` with neither flag set. */
  lemma EqualPricesSame(p: Price)
    ensures ComparePrices(p, p) == Comparison(false, false, SameLabel)
  {
    LessIsStrictTotalOrder(p, p, p);
  }

  /** Two missing responses give `Same`. */
  lemma BothAbsentSame()
    ensures CompareRides(None, None) == Comparison(false, false, SameLabel)
  {
    EqualPricesSame(Top);
  }

  /** A missing Uber response loses to any Ola quote that ranks below the sentinel, and ties with one that does not. */
  lemma UberAbsent(ola: string)
    ensures ExtractPriceValue(ola).Num? ==> CompareRides(None, Some(ola)).cheapestApp == OlaLabel
    ensures ExtractPriceValue(ola).Top? ==> CompareRides(None, Some(ola)).cheapestApp == SameLabel
  {
  }

  /** A missing Ola response loses to any Uber quote that ranks below the sentinel, and ties with one that does not. */
  lemma OlaAbsent(uber: string)
    ensures ExtractPriceValue(uber).Num? ==> CompareRides(Some(uber), None).cheapestApp == UberLabel
    ensures ExtractPriceValue(uber).Top? ==> CompareRides(Some(uber), None).cheapestApp == SameLabel
  {
  }

  /**
    An error message in place of the Uber response beats every Ola quote
    with a positive price: the message has no `{`, so it ranks as zero.
  */
  lemma ErrorBeatsQuote(msg: string, ola: string)
    requires '{' !in msg
    ensures ExtractPriceValue(ola) != Num(0.0) ==> CompareRides(Some("Error: " + msg), Some(ola)).isUberCheaper
    ensures ExtractPriceValue(ola) != Num(0.0) ==> CompareRides(Some("Error: " + msg), Some(ola)).cheapestApp == UberLabel
  {
    ErrorTextIsFree(msg);
    match ExtractPriceValue(ola)
    case Top =>
    case Num(x) =>
      assert x >= 0.0;
  }

  /** `"₹199"` and `"₹250"` rank as 199 and 250. */
  lemma RupeeQuotes()
    ensures PriceFromText("₹199") == Num(199.0)
    ensures PriceFromText("₹250") == Num(250.0)
  {
    RupeeDigits();
    RupeeQuote("₹199", "199", 199);
    RupeeQuote("₹250", "250", 250);
  }

  lemma RupeeDigits()
    ensures "₹199" == "₹" + "199" && AllDigits("199") && DigitsValue("199") == 199
    ensures "₹250" == "₹" + "250" && AllDigits("250") && DigitsValue("250") == 250
  {
    assert "199"[..2] == "19" && "19"[..1] == "1" && "1"[..0] == "";
    assert "250"[..2] == "25" && "25"[..1] == "2" && "2"[..0] == "";
  }

  lemma RupeeQuote(p: string, a: string, n: nat)
    requires p == "₹" + a && AllDigits(a) && |a| > 0 && DigitsValue(a) == n
    ensures PriceFromText(p) == Num(n as real)
  {
    RupeeWhole(a);
  }

  /** Uber at ₹199 against Ola at ₹250, both as compact quotes, flags Uber. */
  lemma UberCheaperExample()
    ensures CompareRides(Some("{\"app\":\"Uber\",\"price\":\"₹199\",\"eta\":\"4 min\"}"),
                         Some("{\"app\":\"Ola\",\"price\":\"₹250\",\"eta\":\"6 min\"}"))
         == Comparison(true, false, UberLabel)
  {
    ParseUberQuote();
    ParseOlaQuote();
    RupeeQuotes();
  }
}

=== FILE: price_value.dfy ===
/**
  `extractPriceValue`: the price text of a parsed quote, stripped of every
  character other than `0-9` and `.`, read as a decimal number. A number is
  kept exactly as a `real`; `Double.MAX_VALUE`, the value used when the text
  does not read as a number, is the top element `Top` above every number.
*/
module PriceValue {
  import opened Options
  import opened KotlinText
  import opened RideParse

  /** A price as the comparison sees it: a decimal number, or the `Double.MAX_VALUE` sentinel. */
  datatype Price = Num(value: real) | Top

  /** `a < b` on prices: numbers by value, every number below the sentinel, nothing below a number from the sentinel. */
  predicate Less(a: Price, b: Price) {
    match a
    case Top => false
    case Num(x) => b.Top? || x < b.value
  }

  /** `Less` is a strict total order. */
  lemma LessIsStrictTotalOrder(a: Price, b: Price, c: Price)
    ensures !Less(a, a)
    ensures Less(a, b) && Less(b, c) ==> Less(a, c)
    ensures a == b || Less(a, b) || Less(b, a)
    ensures !(Less(a, b) && Less(b, a))
  {
  }

  /** The characters `[0-9.]` that survive the cleaning regex. */
  predicate IsPriceChar(c: char) {
    IsDigit(c) || c == '.'
  }

  predicate AllPriceChars(s: string) {
    forall k :: 0 <= k < |s| ==> IsPriceChar(s[k])
  }

  /**
    `replace(Regex("[^0-9.]"), "")`: every character outside `0-9` and `.` is
    dropped, the others are kept with their multiplicities.
  */
  function CleanPrice(s: string): (r: string)
    ensures AllPriceChars(r)
    ensures |r| <= |s|
  {
    if |s| == 0 then ""
    else
      var rest := CleanPrice(s[1..]);
      if IsPriceChar(s[0]) then [s[0]] + rest else rest
  }

  /** Every price character is kept as often as it occurs; every other character is dropped. */
  lemma {:induction false} CleanCounts(s: string)
    ensures forall c :: IsPriceChar(c) ==> multiset(CleanPrice(s))[c] == multiset(s)[c]
    ensures forall c :: !IsPriceChar(c) ==> multiset(CleanPrice(s))[c] == 0
    decreases |s|
  {
    if |s| > 0 {
      CleanCounts(s[1..]);
      assert s == [s[0]] + s[1..];
    }
  }

  /** Cleaning works piecewise, so the kept characters stay in their original order. */
  lemma {:induction false} CleanAppend(a: string, b: string)
    ensures CleanPrice(a + b) == CleanPrice(a) + CleanPrice(b)
    decreases |a|
  {
    if |a| == 0 {
      assert a + b == b;
    } else {
      assert (a + b)[0] == a[0];
      assert (a + b)[1..] == a[1..] + b;
      CleanAppend(a[1..], b);
    }
  }

  /** Text made only of price characters is left as it is. */
  lemma {:induction false} CleanOfClean(s: string)
    requires AllPriceChars(s)
    ensures CleanPrice(s) == s
    decreases |s|
  {
    if |s| > 0 {
      CleanOfClean(s[1..]);
      assert s == [s[0]] + s[1..];
    }
  }

  /** Cleaning twice is cleaning once. */
  lemma CleanIdempotent(s: string)
    ensures CleanPrice(CleanPrice(s)) == CleanPrice(s)
  {
    CleanOfClean(CleanPrice(s));
  }

  /** The cleaned text has a digit exactly when the original has one. */
  lemma CleanKeepsDigits(s: string)
    ensures HasDigit(CleanPrice(s)) <==> HasDigit(s)
  {
    var r := CleanPrice(s);
    CleanCounts(s);
    if HasDigit(s) {
      var k :| 0 <= k < |s| && IsDigit(s[k]);
      assert s[k] in multiset(s);
      assert s[k] in multiset(r);
      assert s[k] in r;
    }
    if HasDigit(r) {
      var k :| 0 <= k < |r| && IsDigit(r[k]);
      assert r[k] in multiset(r);
      assert r[k] in multiset(s);
      assert r[k] in s;
    }
  }

  predicate AllDigits(s: string) {
    forall k :: 0 <= k < |s| ==> IsDigit(s[k])
  }

  function Pow10(n: nat): (p: nat)
    ensures p >= 1
  {
    if n == 0 then 1 else 10 * Pow10(n - 1)
  }

  /** The natural number a string of decimal digits denotes (0 for the empty string). */
  function DigitsValue(s: string): (n: nat)
    requires AllDigits(s)
    ensures n < Pow10(|s|)
  {
    if |s| == 0 then 0
    else DigitsValue(s[..|s| - 1]) * 10 + (s[|s| - 1] - '0') as nat
  }

  /** The number `whole.frac` with the given digit strings on each side of the point. */
  function DecimalOf(whole: string, frac: string): (x: real)
    requires AllDigits(whole) && AllDigits(frac)
    ensures x >= 0.0
  {
    DigitsValue(whole) as real + DigitsValue(frac) as real / Pow10(|frac|) as real
  }

  /**
    `toDoubleOrNull` on text made of digits and points: a number when the text
    has a digit and at most one point (`12`, `12.`, `.5`, `12.50`), `None`
    otherwise (``, `.`, `1.2.3`).
  */
  function ParseDecimal(s: string): (r: Option<real>)
    requires AllPriceChars(s)
    ensures r.Some? <==> HasDigit(s) && multiset(s)['.'] <= 1
    ensures r.Some? ==> r.value >= 0.0
  {
    var dot := IndexOf(s, ".");
    if dot == -1 then
      NoPointAllDigits(s);
      if |s| == 0 then None else Some(DecimalOf(s, ""))
    else
      var whole, frac := s[..dot], s[dot + 1..];
      SplitAtPoint(s, dot);
      if '.' in frac then None
      else if |whole| + |frac| == 0 then None
      else Some(DecimalOf(whole, frac))
  }

  /** With no point in it, text of price characters is all digits; it has a digit iff it is not empty. */
  lemma NoPointAllDigits(s: string)
    requires AllPriceChars(s) && Absent(s, ".")
    ensures AllDigits(s) && multiset(s)['.'] == 0
    ensures HasDigit(s) <==> |s| > 0
  {
    forall k | 0 <= k < |s| ensures IsDigit(s[k]) {
      assert !OccursAt(s, ".", k);
      assert s[k..k + 1] == [s[k]];
    }
    assert |s| > 0 ==> IsDigit(s[0]);
  }

  /** Around the first point: the part before is all digits, and the counts of points and digits add up. */
  lemma SplitAtPoint(s: string, dot: int)
    requires AllPriceChars(s) && FirstAt(s, ".", dot)
    ensures AllDigits(s[..dot])
    ensures '.' !in s[dot + 1..] ==> AllDigits(s[dot + 1..])
    ensures multiset(s)['.'] == 1 + multiset(s[dot + 1..])['.']
    ensures '.' !in s[dot + 1..] ==> (HasDigit(s) <==> dot + 1 < |s| || dot > 0)
  {
    var whole, frac := s[..dot], s[dot + 1..];
    assert s[dot..dot + 1] == ".";
    forall k | 0 <= k < dot ensures IsDigit(whole[k]) {
      assert !OccursAt(s, ".", k);
      assert s[k..k + 1] == [s[k]];
    }
    assert s == whole + ['.'] + frac;
    assert multiset(s) == multiset(whole) + multiset{'.'} + multiset(frac);
    assert '.' !in whole by {
      forall k | 0 <= k < |whole| ensures whole[k] != '.' {
        assert IsDigit(whole[k]);
      }
    }
    if '.' !in frac {
      forall k | 0 <= k < |frac| ensures IsDigit(frac[k]) {
        assert s[dot + 1 + k] == frac[k];
      }
      if dot > 0 {
        assert IsDigit(s[0]);
      } else if dot + 1 < |s| {
        assert IsDigit(s[dot + 1]);
      } else {
        forall k | 0 <= k < |s| ensures !IsDigit(s[k]) {
          assert k == dot;
        }
      }
    }
  }

  /** The digit string of a natural number, most significant digit first (`"0"` for zero). */
  function NatToDigits(n: nat): (s: string)
    ensures |s| > 0 && AllDigits(s)
  {
    var d := ['0' + (n % 10) as char];
    if n < 10 then d else NatToDigits(n / 10) + d
  }

  /** Digit strings read back as the number they were written from. */
  lemma {:induction false} DigitsOfNat(n: nat)
    ensures DigitsValue(NatToDigits(n)) == n
  {
    var s := NatToDigits(n);
    if n >= 10 {
      DigitsOfNat(n / 10);
      assert s[..|s| - 1] == NatToDigits(n / 10);
    }
  }

  /** A whole number written out in digits parses back to itself. */
  lemma ParseNat(n: nat)
    ensures AllPriceChars(NatToDigits(n))
    ensures ParseDecimal(NatToDigits(n)) == Some(n as real)
  {
    ParseWhole(NatToDigits(n));
    DigitsOfNat(n);
  }

  /** Appending zeros after the point does not change the value: `12.5` and `12.50` are the same price. */
  lemma TrailingZero(whole: string, frac: string)
    requires AllDigits(whole) && AllDigits(frac)
    ensures AllDigits(frac + "0")
    ensures DecimalOf(whole, frac + "0") == DecimalOf(whole, frac)
  {
    var f0 := frac + "0";
    assert f0[..|f0| - 1] == frac;
    var d, p := DigitsValue(frac) as real, Pow10(|frac|) as real;
    assert DigitsValue(f0) as real == d * 10.0;
    assert Pow10(|f0|) as real == p * 10.0;
    assert (d * 10.0) / (p * 10.0) == d / p;
  }

  /** The price a quote's price text ranks as. */
  function PriceFromText(price: string): (p: Price)
    ensures p.Top? <==> !HasDigit(price) || multiset(price)['.'] > 1
    ensures p.Num? ==> p.value >= 0.0
  {
    var clean := CleanPrice(price);
    CleanKeepsDigits(price);
    CleanCounts(price);
    match ParseDecimal(clean)
    case Some(x) => Num(x)
    case None => Top
  }

  /** `extractPriceValue(result)`: the price of the quote `parseRideJson` reads from the response. */
  function ExtractPriceValue(result: string): (p: Price)
    ensures '{' !in result ==> p == Num(0.0)
    ensures p.Num? ==> p.value >= 0.0
  {
    var info := ParseRideJson(Some(result));
    assert '{' !in result ==> PriceFromText(info.price) == Num(0.0) by {
      NoObjectPriceIsZero();
    }
    PriceFromText(info.price)
  }

  /** Digits, a point and digits read as the decimal they spell. */
  lemma PointedDecimal(s: string, whole: string, frac: string)
    requires s == whole + "." + frac
    requires AllDigits(whole) && AllDigits(frac) && |whole| + |frac| > 0
    ensures AllPriceChars(s)
    ensures PriceFromText(s) == Num(DecimalOf(whole, frac))
  {
    PointedShape(s, whole, frac);
    FirstAtUnique(s, ".", IndexOf(s, "."), |whole|);
    CleanOfClean(s);
  }

  lemma PointedShape(s: string, whole: string, frac: string)
    requires s == whole + "." + frac
    requires AllDigits(whole) && AllDigits(frac)
    ensures AllPriceChars(s) && FirstAt(s, ".", |whole|)
    ensures s[..|whole|] == whole && s[|whole| + 1..] == frac && '.' !in frac
  {
    assert s == whole + ['.'] + frac;
    forall k | 0 <= k < |whole| ensures !OccursAt(s, ".", k) {
      assert s[k..k + 1][0] == whole[k];
    }
    assert s[|whole|..|whole| + 1] == ".";
    assert '.' !in frac by {
      forall k | 0 <= k < |frac| ensures frac[k] != '.' {
        assert IsDigit(frac[k]);
      }
    }
  }

  /** A run of digits with no point ranks as the whole number it spells. */
  lemma WholeDecimal(s: string)
    requires AllDigits(s) && |s| > 0
    ensures PriceFromText(s) == Num(DigitsValue(s) as real)
  {
    ParseWhole(s);
    CleanOfClean(s);
  }

  /** A run of digits with no point parses as the whole number it spells. */
  lemma ParseWhole(s: string)
    requires AllDigits(s) && |s| > 0
    ensures AllPriceChars(s)
    ensures ParseDecimal(s) == Some(DigitsValue(s) as real)
  {
    DigitsHaveNoPoint(s);
    WholeHasNoFraction(s);
  }

  lemma DigitsHaveNoPoint(s: string)
    requires AllDigits(s)
    ensures AllPriceChars(s) && IndexOf(s, ".") == -1
  {
    forall j | 0 <= j <= |s| ensures !OccursAt(s, ".", j) {
      if j < |s| {
        assert s[j..j + 1][0] == s[j];
      }
    }
  }

  lemma WholeHasNoFraction(s: string)
    requires AllDigits(s)
    ensures DecimalOf(s, "") == DigitsValue(s) as real
  {
    assert DigitsValue("") == 0 && Pow10(0) == 1;
  }

  /** A rupee amount without separators or paise, `₹a`, ranks as the whole number `a`. */
  lemma RupeeWhole(a: string)
    requires AllDigits(a) && |a| > 0
    ensures PriceFromText("₹" + a) == Num(DigitsValue(a) as real)
  {
    var rupee := "₹";
    assert CleanPrice(rupee) == [] by {
      assert rupee[1..] == [];
    }
    CleanAppend(rupee, a);
    CleanOfClean(a);
    WholeDecimal(a);
    PriceSeesCleanText(rupee + a, a);
  }

  /** The `"0.0"` written for a response without `{` ranks as zero. */
  lemma NoObjectPriceIsZero()
    ensures PriceFromText(NoObjectPrice) == Num(0.0)
  {
    var zero := "0";
    assert DigitsValue(zero) == 0;
    PointedDecimal(NoObjectPrice, zero, zero);
  }

  /** The record's default price `"N/A"` ranks at the sentinel. */
  lemma DefaultPriceIsTop()
    ensures PriceFromText(DefaultPrice) == Top
  {
    assert !HasDigit(DefaultPrice);
  }

  /** A price with two points, such as `"1.2.3"`, ranks at the sentinel. */
  lemma TwoPointsIsTop(a: string, b: string, c: string)
    ensures PriceFromText(a + "." + b + "." + c) == Top
  {
    var s := a + "." + b + "." + c;
    assert s == a + ["."[0]] + b + ["."[0]] + c;
    assert multiset(s)['.'] >= 2;
  }

  /**
    Any text without `{`, such as the `"Error: …"` messages the uploader
    returns in place of a response, ranks as the free price zero.
  */
  lemma ErrorTextIsFree(msg: string)
    requires '{' !in msg
    ensures ExtractPriceValue("Error: " + msg) == Num(0.0)
  {
    var s := "Error: " + msg;
    assert '{' !in s by {
      forall k | 0 <= k < |s| ensures s[k] != '{' {
        if k >= 7 {
          assert s[k] == msg[k - 7];
        }
      }
    }
  }

  /** The ranking sees only the cleaned text: texts that clean alike rank alike. */
  lemma PriceSeesCleanText(s: string, t: string)
    requires CleanPrice(s) == CleanPrice(t)
    ensures PriceFromText(s) == PriceFromText(t)
  {
  }

  /** Cleaning `₹a,b.c` leaves `ab.c`. */
  lemma CleanRupeeAmount(a: string, b: string, c: string)
    requires AllDigits(a) && AllDigits(b) && AllDigits(c)
    ensures CleanPrice("₹" + a + "," + b + "." + c) == a + b + "." + c
  {
    var rupee, comma, point := "₹", ",", ".";
    assert CleanPrice(rupee) == [] && CleanPrice(comma) == [] && CleanPrice(point) == point by {
      assert rupee[1..] == [] && comma[1..] == [] && point[1..] == [];
    }
    CleanOfClean(a);
    CleanOfClean(b);
    CleanOfClean(c);
    var p1 := rupee + a;
    var p2 := p1 + comma;
    var p3 := p2 + b;
    var p4 := p3 + point;
    CleanAppend(rupee, a);
    CleanAppend(p1, comma);
    CleanAppend(p2, b);
    CleanAppend(p3, point);
    CleanAppend(p4, c);
    assert CleanPrice(p1) == a;
    assert CleanPrice(p2) == a;
    assert CleanPrice(p3) == a + b;
    assert CleanPrice(p4) == a + b + point;
  }

  /**
    A rupee amount with a thousands separator, `₹a,b.c`, ranks as the
    decimal `ab.c`: the sign and the separator are dropped.
  */
  lemma RupeeAmount(a: string, b: string, c: string)
    requires AllDigits(a) && AllDigits(b) && AllDigits(c) && |a| + |b| + |c| > 0
    ensures AllDigits(a + b)
    ensures PriceFromText("₹" + a + "," + b + "." + c) == Num(DecimalOf(a + b, c))
  {
    var pointed := a + b + "." + c;
    assert AllDigits(a + b) by {
      assert forall k :: |a| <= k < |a + b| ==> (a + b)[k] == b[k - |a|];
    }
    PointedDecimal(pointed, a + b, c);
    CleanRupeeAmount(a, b, c);
    CleanOfClean(pointed);
    PriceSeesCleanText("₹" + a + "," + b + "." + c, pointed);
  }

  /** `"₹1,250.50"` ranks as 1250.5. */
  lemma RupeePrice()
    ensures PriceFromText("₹1,250.50") == Num(1250.5)
  {
    var s := "₹1,250.50";
    var a, b, c := "1", "250", "50";
    assert s == "₹" + a + "," + b + "." + c && a + b == "1250";
    assert AllDigits(a) && AllDigits(b) && AllDigits(c);
    assert DecimalOf("1250", "50") == 1250.5 by {
      assert "1250"[..3] == "125" && "125"[..2] == "12" && "12"[..1] == "1" && "1"[..0] == "";
      assert "50"[..1] == "5" && "5"[..0] == "";
    }
    RupeeAmount(a, b, c);
  }
}

=== FILE: ride_parse.dfy ===
/**
  The ride-quote scraper: `RideInfo` and `parseRideJson`, together with the
  regular-expression fallback that sits in its `catch` block. The scraper does
  not parse JSON; for each key it takes the text between the first pair of
  quotes that follows the first colon after the quoted key, and Kotlin's
  missing-delimiter rule (a missing delimiter leaves the string as it was)
  decides what happens when any of those marks is absent.
*/
module RideParse {
  import opened Options
  import opened KotlinText

  /** One provider's quote, with the record's default values `app = ""`, `price = "N/A"`, `eta = "N/A"`. */
  datatype RideInfo = RideInfo(app: string, price: string, eta: string)

  const DefaultApp: string := ""
  const DefaultPrice: string := "N/A"
  const DefaultEta: string := "N/A"

  /** The price written into the record when the response holds no `{`. */
  const NoObjectPrice: string := "0.0"

  /** The record built when the input is null or has no `{`: `RideInfo(price = "0.0")`. */
  const NoObjectRide: RideInfo := RideInfo(DefaultApp, NoObjectPrice, DefaultEta)

  /** The key as it is searched for: wrapped in double quotes. */
  function KeyPattern(key: string): (p: string)
    ensures |p| == |key| + 2 && p[0] == '"' && p[|p| - 1] == '"' && p[1..|p| - 1] == key
  {
    "\"" + key + "\""
  }

  predicate QuoteFree(s: string) {
    '"' !in s
  }

  /** A record whose fields hold no double quote and no outer whitespace: the only kind `parseRideJson` returns. */
  predicate Readable(info: RideInfo) {
    && QuoteFree(info.app) && QuoteFree(info.price) && QuoteFree(info.eta)
    && IsTrimmed(info.app) && IsTrimmed(info.price) && IsTrimmed(info.eta)
  }

  /**
    The chain `substringAfter("\"key\"").substringAfter(":").substringAfter("\"")
    .substringBefore("\"")`, before trimming: the text up to the first double
    quote after the first double quote after the first colon after the quoted
    key, each step keeping the whole text when its mark is missing.
  */
  function RawField(s: string, key: string): (r: string)
    ensures Absent(r, "\"")
  {
    SubstringBefore(SubstringAfter(SubstringAfter(SubstringAfter(s, KeyPattern(key)), ":"), "\""), "\"")
  }

  /**
    One field as `parseRideJson` reads it: `RawField(...).trim()`. The result
    holds no double quote and has no whitespace at either end.
  */
  function ExtractField(s: string, key: string): (r: string)
    ensures QuoteFree(r)
    ensures IsTrimmed(r)
  {
    var value := RawField(s, key);
    ValueIsQuoteFree(value);
    TrimSlice(value);
    Trim(value)
  }

  /** What `substringBefore("\"")` leaves holds no double quote, and neither does any piece of it. */
  lemma ValueIsQuoteFree(value: string)
    requires Absent(value, "\"")
    ensures QuoteFree(value)
    ensures forall r :: IsSliceOf(r, value) ==> QuoteFree(r)
  {
    forall k | 0 <= k < |value| ensures value[k] != '"' {
      assert !OccursAt(value, "\"", k);
      assert value[k..k + 1] == [value[k]];
    }
    forall r | IsSliceOf(r, value) ensures QuoteFree(r) {
      var lo :| SliceAt(value, lo, r);
      forall k | 0 <= k < |r| ensures r[k] != '"' {
        assert r[k] == value[lo + k];
      }
    }
  }

  /** The untrimmed field is a contiguous piece of the response. */
  lemma RawFieldIsSlice(s: string, key: string)
    ensures IsSliceOf(RawField(s, key), s)
  {
    var afterKey := SubstringAfter(s, KeyPattern(key));
    var afterColon := SubstringAfter(afterKey, ":");
    var afterQuote := SubstringAfter(afterColon, "\"");
    SuffixOfSuffix(s, afterKey, afterColon);
    SuffixOfSuffix(s, afterColon, afterQuote);
    PrefixOfSuffix(s, afterQuote, SubstringBefore(afterQuote, "\""));
  }

  /** Each extracted field is a contiguous piece of the response. */
  lemma FieldIsSlice(s: string, key: string)
    ensures IsSliceOf(ExtractField(s, key), s)
  {
    RawFieldIsSlice(s, key);
    TrimSlice(RawField(s, key));
    SliceTransitive(ExtractField(s, key), RawField(s, key), s);
  }

  /** `parseRideJson(jsonString)`; `None` stands for a null argument. */
  function ParseRideJson(json: Option<string>): (r: RideInfo)
    ensures json.None? || '{' !in json.value ==> r == NoObjectRide
    ensures Readable(r)
  {
    match json
    case None => NoObjectRide
    case Some(s) =>
      if '{' !in s then NoObjectRide
      else RideInfo(ExtractField(s, "app"), ExtractField(s, "price"), ExtractField(s, "eta"))
  }

  /** With a `{` in the response, each field is read by the same chain, run for its own key. */
  lemma ObjectFields(s: string)
    requires '{' in s
    ensures ParseRideJson(Some(s)) == RideInfo(ExtractField(s, "app"), ExtractField(s, "price"), ExtractField(s, "eta"))
  {
  }

  /** No occurrence of `d` in `s` starts before index `n`. */
  predicate NoMatchBefore(s: string, d: string, n: int) {
    forall j :: 0 <= j < n ==> !OccursAt(s, d, j)
  }

  /** A text that starts with the quoted key, after a stretch where the key does not start, is cut right after the key. */
  lemma AfterFirstKey(s: string, x: string, key: string, z: string)
    requires s == x + KeyPattern(key) + z
    requires NoMatchBefore(s, KeyPattern(key), |x|)
    ensures SubstringAfter(s, KeyPattern(key)) == z
  {
    var p := KeyPattern(key);
    assert s[|x|..|x| + |p|] == p;
    assert FirstAt(s, p, |x|);
    SubstringAfterAt(s, p, |x|);
    assert s[|x| + |p|..] == z;
  }

  /**
    Where the first occurrence of `"key"` is followed by colon-free text, a
    colon, a quote-free gap and a quoted quote-free value, the field read for
    `key` is that value, trimmed.
  */
  lemma FieldAfterFirstKey(s: string, x: string, key: string, c: string, gap: string, v: string, y: string)
    requires s == x + KeyPattern(key) + c + ":" + gap + "\"" + v + "\"" + y
    requires NoMatchBefore(s, KeyPattern(key), |x|)
    requires ':' !in c && QuoteFree(gap) && QuoteFree(v)
    ensures ExtractField(s, key) == Trim(v)
  {
    var tail := v + "\"" + y;
    var afterColon := gap + "\"" + tail;
    var afterKey := c + ":" + afterColon;
    assert s == x + KeyPattern(key) + afterKey;
    AfterFirstKey(s, x, key, afterKey);
    AroundFirst(c, ':', afterColon);
    AroundFirst(gap, '"', tail);
    AroundFirst(v, '"', y);
  }

  /** No occurrence of `d` in `x + t` starts inside `x`. */
  predicate NoMatchIn(x: string, t: string, d: string) {
    NoMatchBefore(x + t, d, |x|)
  }

  /** Stretches where a pattern does not start can be joined. */
  lemma NoMatchJoin(x1: string, x2: string, t: string, d: string)
    requires NoMatchIn(x1, x2 + t, d) && NoMatchIn(x2, t, d)
    ensures NoMatchIn(x1 + x2, t, d)
  {
    var s := x1 + x2 + t;
    assert s == x1 + (x2 + t);
    forall j | |x1| <= j < |x1| + |x2| ensures !OccursAt(s, d, j) {
      assert !OccursAt(x2 + t, d, j - |x1|);
      if j + |d| <= |s| {
        assert s[j..j + |d|] == (x2 + t)[j - |x1|..j - |x1| + |d|];
      }
    }
  }

  /** A quoted key never starts inside quote-free text. */
  lemma NoMatchQuoteFree(x: string, t: string, key: string)
    requires QuoteFree(x)
    ensures NoMatchIn(x, t, KeyPattern(key))
  {
    var s := x + t;
    forall j | 0 <= j < |x| ensures !OccursAt(s, KeyPattern(key), j) {
      assert s[j] == x[j];
    }
  }

  /**
    A quoted key does not start at an opening quote whose token differs from
    the key, nor inside that token, provided the token is closed by a quote.
  */
  lemma NoMatchToken(tok: string, t: string, key: string)
    requires QuoteFree(tok) && QuoteFree(key) && tok != key
    requires |t| > 0 && t[0] == '"'
    ensures NoMatchIn("\"" + tok, t, KeyPattern(key))
  {
    var s := "\"" + tok + t;
    var p := KeyPattern(key);
    assert !OccursAt(s, p, 0) by {
      if |p| <= |s| {
        if |key| < |tok| {
          assert s[..|p|][1 + |key|] == tok[|key|] != p[1 + |key|];
        } else if |key| > |tok| {
          assert s[..|p|][1 + |tok|] == t[0] != key[|tok|] == p[1 + |tok|];
        } else {
          SameLengthMismatch(s, p, tok, key, t);
        }
      }
    }
    forall j | 1 <= j < 1 + |tok| ensures !OccursAt(s, p, j) {
      assert s[j] == tok[j - 1];
    }
  }

  /** A quoted token that differs from a key of the same length is not that quoted key. */
  lemma SameLengthMismatch(s: string, p: string, tok: string, key: string, t: string)
    requires s == "\"" + tok + t && p == KeyPattern(key)
    requires |tok| == |key| && tok != key && |p| <= |s|
    ensures s[..|p|] != p
  {
    assert exists k :: 0 <= k < |tok| && tok[k] != key[k];
    var k :| 0 <= k < |tok| && tok[k] != key[k];
    assert s[..|p|][1 + k] == tok[k];
    assert p[1 + k] == key[k];
  }

  /** Tokens, each preceded by a double quote: `"t0"t1"t2...`. */
  function Opens(toks: seq<string>): (r: string)
    ensures |toks| > 0 ==> |r| > 0 && r[0] == '"'
  {
    if |toks| == 0 then "" else "\"" + toks[0] + Opens(toks[1..])
  }

  lemma {:induction false} OpensAppend(a: seq<string>, b: seq<string>)
    ensures Opens(a + b) == Opens(a) + Opens(b)
    decreases |a|
  {
    if |a| == 0 {
      assert a + b == b;
    } else {
      assert (a + b)[1..] == a[1..] + b;
      OpensAppend(a[1..], b);
    }
  }

  /** A quoted key does not start inside a run of quote-delimited tokens none of which is the key. */
  lemma {:induction false} NoMatchOpens(toks: seq<string>, t: string, key: string)
    requires forall i :: 0 <= i < |toks| ==> QuoteFree(toks[i]) && toks[i] != key
    requires QuoteFree(key) && |t| > 0 && t[0] == '"'
    ensures NoMatchIn(Opens(toks), t, KeyPattern(key))
    decreases |toks|
  {
    if |toks| > 0 {
      var rest := Opens(toks[1..]);
      NoMatchOpens(toks[1..], t, key);
      assert (rest + t)[0] == '"';
      NoMatchToken(toks[0], rest + t, key);
      NoMatchJoin("\"" + toks[0], rest, t, KeyPattern(key));
      assert Opens(toks) == "\"" + toks[0] + rest;
    }
  }

  /** An object `{"t0"t1"…"}` written as quote-delimited tokens. */
  function Object(toks: seq<string>): string {
    "{" + Opens(toks) + "\"}"
  }

  /**
    `toks`, each token closed by a quote, followed by `close`, all read after
    the first quote: the text between a key token and its colon token when
    `close` is `"`, and the rest of the object after a value when it is `"}`.
  */
  function Closed(toks: seq<string>, close: string): (c: string)
    requires |close| > 0 && close[0] == '"'
    ensures Opens(toks) + close == "\"" + c
  {
    (Opens(toks) + close)[1..]
  }

  /** Tokens without a colon leave no colon between them. */
  lemma {:induction false} OpensColonFree(toks: seq<string>)
    requires forall i :: 0 <= i < |toks| ==> ':' !in toks[i]
    ensures ':' !in Opens(toks)
    decreases |toks|
  {
    if |toks| > 0 {
      OpensColonFree(toks[1..]);
      assert Opens(toks) == "\"" + toks[0] + Opens(toks[1..]);
    }
  }

  /** `Opens([t])` is the token after its quote. */
  lemma OpensOne(t: string)
    ensures Opens([t]) == "\"" + t
  {
    assert [t][1..] == [];
  }

  /** The tokens `key`, `:`, `v` read `"key":"v`. */
  lemma OpensPair(key: string, v: string)
    ensures Opens([key, ":", v]) == KeyPattern(key) + ":" + "\"" + v
  {
    OpensOne(v);
    OpensCons(":", [v]);
    OpensCons(key, [":", v]);
    assert [key] + [":", v] == [key, ":", v];
  }

  /**
    Where the first token spelling a key is followed by the tokens `mid`, a
    colon token and a value, the object's text reads `…"key"` then `mid` then
    `:"value"…`.
  */
  lemma ObjectShape(pre: seq<string>, key: string, mid: seq<string>, v: string, post: seq<string>)
    ensures Object(pre + ([key] + mid + [":", v]) + post)
         == ("{" + Opens(pre)) + (KeyPattern(key) + Closed(mid, "\"") + ":" + "\"" + v + "\"" + Closed(post, "\"}"))
  {
    OpensSegment(key, mid, v);
    OpensThree(pre, [key] + mid + [":", v], post);
    SegmentAlgebra(Opens(pre), key, Opens(mid), Closed(mid, "\""), v, Opens(post), Closed(post, "\"}"));
  }

  lemma OpensSegment(key: string, mid: seq<string>, v: string)
    ensures Opens([key] + mid + [":", v]) == "\"" + key + Opens(mid) + ("\"" + ":" + "\"" + v)
  {
    OpensAppend([key] + mid, [":", v]);
    OpensAppend([key], mid);
    OpensOne(key);
    OpensCons(":", [v]);
    OpensOne(v);
  }

  lemma OpensThree(pre: seq<string>, seg: seq<string>, post: seq<string>)
    ensures Opens(pre + seg + post) == Opens(pre) + Opens(seg) + Opens(post)
  {
    OpensAppend(pre + seg, post);
    OpensAppend(pre, seg);
  }

  /** The regrouping behind `ObjectShape`, on plain strings. */
  lemma SegmentAlgebra(h: string, key: string, m: string, c: string, v: string, o: string, y: string)
    requires m + "\"" == "\"" + c && o + "\"}" == "\"" + y
    ensures "{" + (h + ("\"" + key + m + ("\"" + ":" + "\"" + v)) + o) + "\"}"
         == ("{" + h) + (KeyPattern(key) + c + ":" + "\"" + v + "\"" + y)
  {
    calc {
      "{" + (h + ("\"" + key + m + ("\"" + ":" + "\"" + v)) + o) + "\"}";
      ("{" + h) + ("\"" + key + (m + "\"") + (":" + "\"" + v) + (o + "\"}"));
      ("{" + h) + ("\"" + key + ("\"" + c) + (":" + "\"" + v) + ("\"" + y));
      ("{" + h) + (KeyPattern(key) + c + ":" + "\"" + v + "\"" + y);
    }
  }

  /**
    In an object of quote-free tokens, the field read for a key is the value
    after the first token that spells the key, the colon-free tokens `mid`
    after it, and a colon token. With `mid` empty this is the key's own
    value; otherwise the key first occurs as an earlier value and the entry
    after it is the one read.
  */
  lemma FieldOfObject(pre: seq<string>, key: string, mid: seq<string>, v: string, post: seq<string>)
    requires forall i :: 0 <= i < |pre| ==> QuoteFree(pre[i]) && pre[i] != key
    requires forall i :: 0 <= i < |mid| ==> ':' !in mid[i]
    requires QuoteFree(key) && QuoteFree(v)
    ensures ExtractField(Object(pre + ([key] + mid + [":", v]) + post), key) == Trim(v)
  {
    var c, y := Closed(mid, "\""), Closed(post, "\"}");
    var t := KeyPattern(key) + c + ":" + "\"" + v + "\"" + y;
    ObjectShape(pre, key, mid, v, post);
    assert t[0] == '"';
    ClosedColonFree(mid);
    NoMatchInObject(pre, t, key);
    FieldAfterHead("{" + Opens(pre), t, key, c, v, y);
  }

  /** `FieldAfterFirstKey` with the value right after the colon, the text split at the first key. */
  lemma FieldAfterHead(x: string, t: string, key: string, c: string, v: string, y: string)
    requires t == KeyPattern(key) + c + ":" + "\"" + v + "\"" + y
    requires NoMatchIn(x, t, KeyPattern(key))
    requires ':' !in c && QuoteFree(v)
    ensures ExtractField(x + t, key) == Trim(v)
  {
    var noGap := "";
    assert x + t == x + KeyPattern(key) + c + ":" + noGap + "\"" + v + "\"" + y;
    FieldAfterFirstKey(x + t, x, key, c, noGap, v, y);
  }

  lemma ClosedColonFree(mid: seq<string>)
    requires forall i :: 0 <= i < |mid| ==> ':' !in mid[i]
    ensures ':' !in Closed(mid, "\"")
  {
    var c := Closed(mid, "\"");
    OpensColonFree(mid);
    assert forall k :: 0 <= k < |c| ==> c[k] == (Opens(mid) + "\"")[k + 1];
  }

  /** A quoted key does not start in the head `{"t0"t1…` of an object when no token there is the key. */
  lemma NoMatchInObject(pre: seq<string>, t: string, key: string)
    requires forall i :: 0 <= i < |pre| ==> QuoteFree(pre[i]) && pre[i] != key
    requires QuoteFree(key) && |t| > 0 && t[0] == '"'
    ensures NoMatchIn("{" + Opens(pre), t, KeyPattern(key))
  {
    NoMatchOpens(pre, t, key);
    NoMatchQuoteFree("{", Opens(pre) + t, key);
    NoMatchJoin("{", Opens(pre), t, KeyPattern(key));
  }

  /** The tokens of the compact JSON object for a record. */
  function Tokens(info: RideInfo): seq<string> {
    ["app", ":", info.app, ",", "price", ":", info.price, ",", "eta", ":", info.eta]
  }

  /** The compact JSON object `{"app":"…","price":"…","eta":"…"}` the backend is expected to send. */
  function Serialize(info: RideInfo): string {
    "{\"app\":\"" + info.app + "\",\"price\":\"" + info.price + "\",\"eta\":\"" + info.eta + "\"}"
  }

  /** `Opens([t] + rest)` peels one token. */
  lemma OpensCons(t: string, rest: seq<string>)
    ensures Opens([t] + rest) == "\"" + t + Opens(rest)
  {
    assert ([t] + rest)[1..] == rest;
  }

  /** A comma token followed by a key, a colon token and a value reads `","key":"v`. */
  lemma OpensCommaPair(key: string, v: string)
    ensures Opens([",", key, ":", v]) == "\"," + KeyPattern(key) + ":" + "\"" + v
  {
    OpensCons(",", [key, ":", v]);
    assert [","] + [key, ":", v] == [",", key, ":", v];
    OpensPair(key, v);
  }

  /** The serialized text is the object written from the record's tokens. */
  lemma SerializeIsObject(info: RideInfo)
    ensures Serialize(info) == Object(Tokens(info))
  {
    var a, p, e := info.app, info.price, info.eta;
    var g1, g2, g3 := ["app", ":", a], [",", "price", ":", p], [",", "eta", ":", e];
    assert Tokens(info) == g1 + g2 + g3;
    assert Opens(Tokens(info)) == Opens(g1) + Opens(g2) + Opens(g3) by {
      OpensAppend(g1 + g2, g3);
      OpensAppend(g1, g2);
    }
    OpensPair("app", a);
    OpensCommaPair("price", p);
    OpensCommaPair("eta", e);
    SerializeAlgebra(Opens(g1), Opens(g2), Opens(g3), a, p, e);
  }

  lemma SerializeAlgebra(o1: string, o2: string, o3: string, a: string, p: string, e: string)
    requires o1 == KeyPattern("app") + ":" + "\"" + a
    requires o2 == "\"," + KeyPattern("price") + ":" + "\"" + p
    requires o3 == "\"," + KeyPattern("eta") + ":" + "\"" + e
    ensures "{\"app\":\"" + a + "\",\"price\":\"" + p + "\",\"eta\":\"" + e + "\"}"
         == "{" + (o1 + o2 + o3) + "\"}"
  {
    assert KeyPattern("app") + ":" + "\"" == "\"app\":\"";
    assert "\"," + KeyPattern("price") + ":" + "\"" == "\",\"price\":\"";
    assert "\"," + KeyPattern("eta") + ":" + "\"" == "\",\"eta\":\"";
  }

  /**
    What `parseRideJson` reads back from a serialized record with quote-free
    fields: each field trimmed, except that an app named `eta` is the first
    `"eta"` in the text, so the eta read is the price that follows it.
  */
  lemma ReadSerialized(info: RideInfo)
    requires QuoteFree(info.app) && QuoteFree(info.price) && QuoteFree(info.eta)
    ensures ParseRideJson(Some(Serialize(info)))
         == RideInfo(Trim(info.app), Trim(info.price), Trim(if info.app == "eta" then info.price else info.eta))
  {
    var s := Serialize(info);
    assert '{' in s by {
      assert s[0] == '{';
    }
    SerializedApp(info);
    SerializedPrice(info);
    SerializedEta(info);
  }

  /**
    A record whose fields hold no double quote and no outer whitespace
    survives serialization followed by `parseRideJson` exactly when its app is
    not named `eta` or its price and eta agree.
  */
  lemma ParseSerialized(info: RideInfo)
    requires Readable(info)
    ensures ParseRideJson(Some(Serialize(info))) == info <==> info.app != "eta" || info.price == info.eta
  {
    var r := ParseRideJson(Some(Serialize(info)));
    ReadSerialized(info);
    TrimmedNames(info, r);
    TrimmedEta(info, r);
    EtaChoice(info, r);
  }

  lemma TrimmedNames(info: RideInfo, r: RideInfo)
    requires Readable(info)
    requires r == RideInfo(Trim(info.app), Trim(info.price), Trim(if info.app == "eta" then info.price else info.eta))
    ensures r.app == info.app && r.price == info.price
  {
    TrimOfTrimmed(info.app);
    TrimOfTrimmed(info.price);
  }

  lemma TrimmedEta(info: RideInfo, r: RideInfo)
    requires Readable(info)
    requires r == RideInfo(Trim(info.app), Trim(info.price), Trim(if info.app == "eta" then info.price else info.eta))
    ensures r.eta == if info.app == "eta" then info.price else info.eta
  {
    TrimOfTrimmed(info.price);
    TrimOfTrimmed(info.eta);
  }

  lemma EtaChoice(info: RideInfo, r: RideInfo)
    requires r == RideInfo(info.app, info.price, if info.app == "eta" then info.price else info.eta)
    ensures r == info <==> info.app != "eta" || info.price == info.eta
  {
  }

  /** The `app` field of a serialized record reads back, trimmed. */
  lemma SerializedApp(info: RideInfo)
    requires QuoteFree(info.app)
    ensures ExtractField(Serialize(info), "app") == Trim(info.app)
  {
    var a, p, e := info.app, info.price, info.eta;
    var none: seq<string> := [];
    SerializeIsObject(info);
    assert Tokens(info) == none + (["app"] + none + [":", a]) + [",", "price", ":", p, ",", "eta", ":", e];
    FieldOfObject(none, "app", none, a, [",", "price", ":", p, ",", "eta", ":", e]);
  }

  /**
    The `price` field reads back, trimmed, whatever the app is called: an app
    named `price` is the first `"price"`, but the entry that follows it is the
    price's own.
  */
  lemma SerializedPrice(info: RideInfo)
    requires QuoteFree(info.app) && QuoteFree(info.price)
    ensures ExtractField(Serialize(info), "price") == Trim(info.price)
  {
    var a, p, e := info.app, info.price, info.eta;
    var none: seq<string> := [];
    SerializeIsObject(info);
    if a == "price" {
      assert Tokens(info) == ["app", ":"] + (["price"] + [",", "price"] + [":", p]) + [",", "eta", ":", e];
      FieldOfObject(["app", ":"], "price", [",", "price"], p, [",", "eta", ":", e]);
    } else {
      assert Tokens(info) == ["app", ":", a, ","] + (["price"] + none + [":", p]) + [",", "eta", ":", e];
      FieldOfObject(["app", ":", a, ","], "price", none, p, [",", "eta", ":", e]);
    }
  }

  /**
    The `eta` field reads back, trimmed, unless the app is named `eta`: then
    the first `"eta"` is the app's value and the entry after it is the price.
    A price named `eta` does no harm, since the entry after it is the eta's own.
  */
  lemma SerializedEta(info: RideInfo)
    requires QuoteFree(info.app) && QuoteFree(info.price)
    requires info.app != "eta" ==> QuoteFree(info.eta)
    ensures ExtractField(Serialize(info), "eta") == Trim(if info.app == "eta" then info.price else info.eta)
  {
    var a, p, e := info.app, info.price, info.eta;
    var none: seq<string> := [];
    SerializeIsObject(info);
    if a == "eta" {
      assert Tokens(info) == ["app", ":"] + (["eta"] + [",", "price"] + [":", p]) + [",", "eta", ":", e];
      FieldOfObject(["app", ":"], "eta", [",", "price"], p, [",", "eta", ":", e]);
    } else if p == "eta" {
      assert Tokens(info) == ["app", ":", a, ",", "price", ":"] + (["eta"] + [",", "eta"] + [":", e]) + none;
      FieldOfObject(["app", ":", a, ",", "price", ":"], "eta", [",", "eta"], e, none);
    } else {
      assert Tokens(info) == ["app", ":", a, ",", "price", ":", p, ","] + (["eta"] + none + [":", e]) + none;
      FieldOfObject(["app", ":", a, ",", "price", ":", p, ","], "eta", none, e, none);
    }
  }

  /** The Uber quote `{"app":"Uber","price":"₹199","eta":"4 min"}` reads back field by field. */
  lemma ParseUberQuote()
    ensures ParseRideJson(Some("{\"app\":\"Uber\",\"price\":\"₹199\",\"eta\":\"4 min\"}"))
         == RideInfo("Uber", "₹199", "4 min")
  {
    UberText();
    ParseSerialized(RideInfo("Uber", "₹199", "4 min"));
  }

  lemma UberText()
    ensures Serialize(RideInfo("Uber", "₹199", "4 min")) == "{\"app\":\"Uber\",\"price\":\"₹199\",\"eta\":\"4 min\"}"
  {}

  /** The Ola quote `{"app":"Ola","price":"₹250","eta":"6 min"}` reads back field by field. */
  lemma ParseOlaQuote()
    ensures ParseRideJson(Some("{\"app\":\"Ola\",\"price\":\"₹250\",\"eta\":\"6 min\"}"))
         == RideInfo("Ola", "₹250", "6 min")
  {
    OlaText();
    ParseSerialized(RideInfo("Ola", "₹250", "6 min"));
  }

  lemma OlaText()
    ensures Serialize(RideInfo("Ola", "₹250", "6 min")) == "{\"app\":\"Ola\",\"price\":\"₹250\",\"eta\":\"6 min\"}"
  {}

  /**
    When the app is named `eta`, the first `"eta"` is the app's value, so the
    eta read back is the price, whatever the real eta says.
  */
  lemma AppNamedEta(p: string, e: string)
    requires QuoteFree(p)
    ensures ParseRideJson(Some(Serialize(RideInfo("eta", p, e)))).eta == Trim(p)
  {
    var s := Serialize(RideInfo("eta", p, e));
    assert QuoteFree("eta");
    SerializedEta(RideInfo("eta", p, e));
    assert '{' in s by {
      assert s[0] == '{';
    }
    ObjectFields(s);
  }

  /**
    The chain with the key step skipped: the quoted text after the first colon,
    trimmed. This is what every key that does not occur reads.
  */
  function FirstValue(s: string): string {
    Trim(SubstringBefore(SubstringAfter(SubstringAfter(s, ":"), "\""), "\""))
  }

  /** A key whose quoted form does not occur gets no default: it reads the first value after a colon. */
  lemma MissingKey(s: string, key: string)
    requires Absent(s, KeyPattern(key))
    ensures ExtractField(s, key) == FirstValue(s)
  {
    assert SubstringAfter(s, KeyPattern(key)) == s;
  }

  /** After colon-free text, a colon, a quote-free gap and a quoted value, the first value is that value, trimmed. */
  lemma FirstValueAt(s: string, c: string, gap: string, v: string, y: string)
    requires s == c + ":" + gap + "\"" + v + "\"" + y
    requires ':' !in c && QuoteFree(gap) && QuoteFree(v)
    ensures FirstValue(s) == Trim(v)
  {
    var tail := v + "\"" + y;
    var afterColon := gap + "\"" + tail;
    assert s == c + [':'] + afterColon;
    AroundFirst(c, ':', afterColon);
    AroundFirst(gap, '"', tail);
    AroundFirst(v, '"', y);
    assert SubstringBefore(SubstringAfter(SubstringAfter(s, ":"), "\""), "\"") == v;
  }

  /** A key that no token of an object spells is absent from the object's text. */
  lemma AbsentFromObject(toks: seq<string>, key: string)
    requires forall i :: 0 <= i < |toks| ==> QuoteFree(toks[i]) && toks[i] != key
    requires QuoteFree(key)
    ensures Absent(Object(toks), KeyPattern(key))
  {
    var s, p, x, t := Object(toks), KeyPattern(key), "{" + Opens(toks), "\"}";
    assert s == x + t;
    NoMatchOpens(toks, t, key);
    NoMatchQuoteFree("{", Opens(toks) + t, key);
    NoMatchJoin("{", Opens(toks), t, p);
    forall j | |x| <= j <= |s| ensures !OccursAt(s, p, j) {
      if j + |p| <= |s| {
        assert s[j..j + |p|][|p| - 1] == s[|s| - 1] == '}' != p[|p| - 1];
      }
    }
  }

  /** A one-key object reads `{"key":"v"}`. */
  lemma SingleObjectText(key: string, v: string)
    ensures Object([key, ":", v]) == "{" + KeyPattern(key) + ":" + "\"" + v + "\"}"
  {
    OpensPair(key, v);
  }

  /** The one key of a one-key object reads its value. */
  lemma SingleKeyField(key: string, v: string)
    requires QuoteFree(key) && QuoteFree(v)
    ensures ExtractField(Object([key, ":", v]), key) == Trim(v)
  {
    var none: seq<string> := [];
    assert none + ([key] + none + [":", v]) + none == [key, ":", v];
    FieldOfObject(none, key, none, v, none);
  }

  /** Every other key of a one-key object falls through to the first colon and reads the same value. */
  lemma SingleKeyMissing(s: string, key: string, v: string, other: string)
    requires s == "{" + KeyPattern(key) + ":" + "\"" + v + "\"}"
    requires Absent(s, KeyPattern(other))
    requires ':' !in key && QuoteFree(v)
    ensures ExtractField(s, other) == Trim(v)
  {
    FirstValueAt(s, "{" + KeyPattern(key), "", v, "}");
    MissingKey(s, other);
  }

  /** Every other key of a one-key object reads the one key's value. */
  lemma SingleKeyOther(key: string, v: string, other: string)
    requires QuoteFree(key) && QuoteFree(v) && QuoteFree(other)
    requires ':' !in key && other != key && other != ":" && other != v
    ensures ExtractField(Object([key, ":", v]), other) == Trim(v)
  {
    SingleObjectText(key, v);
    AbsentFromObject([key, ":", v], other);
    SingleKeyMissing(Object([key, ":", v]), key, v, other);
  }

  /**
    With only the price present, the app and the eta read the price as well:
    `{"price":"250"}` parses to `RideInfo("250", "250", "250")`.
  */
  lemma OnlyPrice(p: string)
    requires QuoteFree(p) && IsTrimmed(p)
    requires p != "app" && p != "eta"
    ensures ParseRideJson(Some("{\"price\":\"" + p + "\"}")) == RideInfo(p, p, p)
  {
    var s := "{\"price\":\"" + p + "\"}";
    assert QuoteFree("price") && QuoteFree("app") && QuoteFree("eta") && ':' !in "price";
    assert '{' in s by {
      assert s[0] == '{';
    }
    OnlyPriceText(s, p);
    TrimOfTrimmed(p);
    SingleKeyField("price", p);
    SingleKeyOther("price", p, "app");
    SingleKeyOther("price", p, "eta");
  }

  lemma OnlyPriceText(s: string, p: string)
    requires s == "{\"price\":\"" + p + "\"}"
    ensures s == Object(["price", ":", p])
  {
    SingleObjectText("price", p);
  }

  /** `s[i..j]` is the leftmost maximal run of ASCII digits in `s`. */
  predicate IsFirstDigitRun(s: string, i: int, j: int) {
    && 0 <= i < j <= |s|
    && (forall k :: 0 <= k < i ==> !IsDigit(s[k]))
    && (forall k :: i <= k < j ==> IsDigit(s[k]))
    && (j == |s| || !IsDigit(s[j]))
  }

  /** The end of the run of digits that starts at `i`. */
  function DigitsEnd(s: string, i: nat): (j: nat)
    requires i <= |s|
    ensures i <= j <= |s|
    ensures forall k :: i <= k < j ==> IsDigit(s[k])
    ensures j == |s| || !IsDigit(s[j])
    decreases |s| - i
  {
    if i < |s| && IsDigit(s[i]) then DigitsEnd(s, i + 1) else i
  }

  /** The start of the first digit at or after `i`, or `|s|`. */
  function NextDigit(s: string, i: nat): (j: nat)
    requires i <= |s|
    ensures i <= j <= |s|
    ensures forall k :: i <= k < j ==> !IsDigit(s[k])
    ensures j == |s| || IsDigit(s[j])
    decreases |s| - i
  {
    if i == |s| || IsDigit(s[i]) then i else NextDigit(s, i + 1)
  }

  /** `Regex("(\\d+)").find(s)?.value`, with `\d` read as the ASCII digits: the leftmost maximal run of them, if there is one. */
  function FirstDigitRun(s: string): (r: Option<string>)
    ensures r.None? <==> !HasDigit(s)
    ensures r.Some? ==> exists i, j :: IsFirstDigitRun(s, i, j) && r.value == s[i..j]
  {
    var i := NextDigit(s, 0);
    if i == |s| then None
    else
      var j := DigitsEnd(s, i);
      assert IsFirstDigitRun(s, i, j);
      Some(s[i..j])
  }

  /** The leftmost maximal digit run is determined by the text: whichever run the predicate picks is the one found. */
  lemma FirstDigitRunUnique(s: string, i: int, j: int)
    requires IsFirstDigitRun(s, i, j)
    ensures FirstDigitRun(s) == Some(s[i..j])
  {
    assert HasDigit(s) by {
      assert IsDigit(s[i]);
    }
    var r := FirstDigitRun(s);
    var a, b :| IsFirstDigitRun(s, a, b) && r.value == s[a..b];
    assert IsDigit(s[a]) && IsDigit(s[i]);
    assert a == i;
    assert b == j by {
      assert b < |s| ==> !IsDigit(s[b]);
      assert j < |s| ==> !IsDigit(s[j]);
    }
  }

  /**
    The `catch` block of `parseRideJson`: a record with the default app and eta
    and, as price, the first run of ASCII digits in the response or `"0.0"`.
    The `try` block above it is total (every cut it makes is in range), so
    `ParseRideJson` never reaches this path.
  */
  function FallbackParse(s: string): (r: RideInfo)
    ensures r.app == DefaultApp && r.eta == DefaultEta
    ensures r.price == NoObjectPrice <==> !HasDigit(s)
    ensures HasDigit(s) ==> exists i, j :: IsFirstDigitRun(s, i, j) && r.price == s[i..j]
  {
    var price := FirstDigitRun(s).GetOr(NoObjectPrice);
    assert HasDigit(s) ==> price != NoObjectPrice by {
      if HasDigit(s) {
        var i, j :| IsFirstDigitRun(s, i, j) && price == s[i..j];
        assert !IsDigit(NoObjectPrice[1]);
        assert forall k :: 0 <= k < |price| ==> IsDigit(price[k]);
      }
    }
    RideInfo(DefaultApp, price, DefaultEta)
  }

  /**
    The fallback takes the first digit run whole: in `pre + d + post`, with no
    digit in `pre` and `post` not continuing the run, the price is `d`. For
    `random 42 text` it is `42`, while `ParseRideJson` answers `0.0` for that
    text because it has no `{`.
  */
  lemma FallbackFirstRun(pre: string, d: string, post: string)
    requires !HasDigit(pre) && |d| > 0
    requires forall k :: 0 <= k < |d| ==> IsDigit(d[k])
    requires |post| == 0 || !IsDigit(post[0])
    ensures FallbackParse(pre + d + post).price == d
  {
    var s := pre + d + post;
    var i, j := |pre|, |pre| + |d|;
    assert s[i..j] == d;
    forall k | 0 <= k < i ensures !IsDigit(s[k]) {
      assert s[k] == pre[k];
    }
    forall k | i <= k < j ensures IsDigit(s[k]) {
      assert s[k] == d[k - i];
    }
    assert j < |s| ==> s[j] == post[0];
    assert IsFirstDigitRun(s, i, j);
    FirstDigitRunUnique(s, i, j);
  }
}
